=== FILE: README.md ===
# JobObjectWrapper job event pump, in Dafny

JobObjectWrapper is a C++/CLI wrapper around Windows job objects. This
project models the part of it that turns the kernel's job notifications into
.NET events, plus the small native-interop utilities that sit beside it:

- **EventRegistry** (`event_registry.dfy`): the subscription registry of
  `JobEventHandler`. There is one `EventEntry<TEventArgs>` per native event
  code. Each entry holds the ordered invocation list of a multicast delegate.
  `AddDelegate` creates a missing entry. `RemoveDelegate` leaves entries in
  place and drops the last occurrence of the delegate, as `Delegate::Remove`
  does. `Invoke` builds the arguments once and calls the listeners in
  subscription order. A listener's exception is caught and reported; it never
  propagates.
- **EventPump** (`event_pump.dfy`): `ListeningThreadRoutine` is modelled as a
  fold over the completion packets the port returns, and also as a `while`
  loop proved equal to that fold. A failed wait ends the loop with a
  `JobException`. A non-zero completion key ends it normally. Every other
  packet is dispatched, whatever its listeners do. `ExitListeningThread` posts
  the key-1 packet that ends the loop.
- **JobEventArgs** (`event_args.dfy`): the derived properties of the argument
  classes:
  - the lazily resolved, cached `TheProcess`;
  - `Win32Path`, with its three native calls and the 1024-character buffer;
  - `Win32Name`, which falls back to the decimal pid;
  - `ExitReasonId` and `ExitReasonMessage` of an abnormal exit.

  The operating system is an oracle handed to each read.
- **Decimal** (`decimal.dfy`): `UInt32::ToString()` for a pid, with a parser
  used to prove the text names the number.
- **Marshaling** (`marshaling.dfy`): `MarshalingContext`. It uses a
  process-wide TLS index, allocated on first use and left at `~0` if
  allocation fails. Each context remembers the one it replaced, tracks the
  native strings it handed out, and on destruction restores its predecessor,
  destroys its heap and frees each string. The proofs cover freshness, no
  double free, and that properly nested scopes restore what they found.
- **LargeInteger** (`large_integer.dfy`): the two `Convert` overloads between
  `__int64` and `LARGE_INTEGER`, proved inverse.
- **NativeTypes** (`native_types.dfy`): the Win32 integer ranges plus the
  `Option` and `Result` types.

One `try` wraps the whole multicast call (JobManagement/JobEventHandler.cpp:28-36),
so the first listener that raises stops the later listeners of the same entry;
the pump still continues with the next packet. `EventRegistry.Deliver` models
that.

## Model

| member | source | states |
|---|---|---|
| EventRegistry.RemoveLast | JobManagement/JobEventHandler.cpp:46-51 | `-=` removes the last occurrence of the delegate and keeps the others in order; the multiset loses exactly one copy; a delegate not in the list changes nothing |
| EventRegistry.RemoveUndoesAppend | JobManagement/JobEventHandler.cpp:39-51 | subscribing a delegate and then unsubscribing it restores the invocation list |
| EventRegistry.Deliver | JobManagement/JobEventHandler.cpp:28-36 | listeners are called in order with the same arguments; the first one that raises is the last one called and is reported; there is no fault exactly when every listener ran and none raised |
| EventRegistry.EntryAdd | JobManagement/JobEventHandler.cpp:39-44 | a delegate of the entry's argument type is appended; a mismatched one casts to null and leaves the entry unchanged |
| EventRegistry.EntryRemove | JobManagement/JobEventHandler.cpp:46-51 | a matching delegate loses its last occurrence and the others keep their order; a mismatched or absent one changes nothing; the list never grows |
| EventRegistry.EntryInvoke | JobManagement/JobEventHandler.cpp:25-37 | the arguments are built from the entry's type and the value; listeners are called in list order up to and including the first that raises, which is the one reported; no fault exactly when all ran and none raised; the exception is caught, so the invocation always completes |
| EventRegistry.AddDelegate | JobManagement/JobEventHandler.cpp:159-175 | the delegate's code gains an entry if it had none, holding just that delegate; the existing entry is otherwise extended; other entries are unchanged |
| EventRegistry.RemoveDelegate | JobManagement/JobEventHandler.cpp:177-185 | a code without an entry leaves the registry unchanged; entries are never deleted; only the delegate's own entry is edited |
| EventRegistry.EntryRemoveUndoesAdd | JobManagement/JobEventHandler.cpp:39-51 | on one entry, `-=` right after `+=` of the same delegate leaves the entry as it was, for matching and mismatched delegates alike |
| EventRegistry.UnsubscribeUndoesSubscribe | JobManagement/JobEventHandler.cpp:159-185 | unsubscribing right after subscribing restores the registry; if the subscription created the entry, that entry stays behind, empty |
| EventRegistry.Invoke | JobManagement/JobEventHandler.cpp:187-194 | an unknown code builds no arguments and calls nobody; a known code builds its entry's arguments and calls its listeners in list order up to and including the first that raises, which is reported; no fault exactly when every listener ran cleanly |
| EventRegistry.InvokeCallsAllInOrder | JobManagement/JobEventHandler.cpp:25-37 | when no listener raises, every subscribed delegate is called exactly once, in subscription order, with the same arguments |
| EventRegistry.StepKeepsEntries | JobManagement/JobEventHandler.cpp:159-185 | one subscription call adds at most its own code and never removes one; an entry never receives a delegate of another argument type |
| EventRegistry.ApplyKeepsEntries | JobManagement/JobEventHandler.cpp:159-185 | after any sequence of subscribe and unsubscribe calls, the codes are exactly the old ones plus those subscribed to; typing is kept |
| EventRegistry.SubscribeAllInOrder | JobManagement/JobEventHandler.cpp:159-175 | subscribing delegates to a fresh code leaves exactly those delegates in subscription order |
| EventRegistry.SubscribeAllAppend | JobManagement/JobEventHandler.cpp:159-175 | subscribing to an existing entry appends the delegates after the ones already there |
| EventPump.FirstStop | JobManagement/JobEventHandler.cpp:243-254 | the loop's first stopping packet (failed wait or non-zero key); every packet before it is a successful key-0 packet |
| EventPump.Run | JobManagement/JobEventHandler.cpp:237-258 | the packets dispatched are exactly the prefix before the first stopping packet; a failed wait ends in `WaitFailed` and a non-zero key ends in `Exited`; the loop keeps waiting exactly when no packet stops it |
| EventPump.RunDispatchesInOrder | JobManagement/JobEventHandler.cpp:243-257 | the i-th dispatch is the registry's `Invoke` for the i-th dispatched packet, with the low 32 bits of its overlapped word |
| EventPump.RunDetermined | JobManagement/JobEventHandler.cpp:237-258 | any run record with the loop's observable properties is the fold's result |
| EventPump.ListeningThreadRoutine | JobManagement/JobEventHandler.cpp:237-258 | the `while` loop computes the same run as the fold; it exits only after receiving a successful packet with a non-zero key |
| EventPump.ExitListeningThread | JobManagement/JobEventHandler.cpp:228-230 | a successful post puts the exit packet (key 1) behind everything already queued; a failed post, whose result is ignored, leaves the queue unchanged |
| EventPump.ExitRequestEndsLoop | JobManagement/JobEventHandler.cpp:228-258 | a posted exit request always ends the loop; with nothing stopping it earlier, the loop exits after dispatching every earlier packet; the exit packet is never dispatched; after a failed post a queue of job notifications leaves the loop waiting |
| EventPump.NothingAfterStop | JobManagement/JobEventHandler.cpp:243-254 | packets queued behind the stopping packet change nothing |
| EventPump.ListenerFailuresDoNotStopLoop | JobManagement/JobEventHandler.cpp:243-257 | which packets are dispatched and how the loop ends do not depend on whether listeners raise |
| EventPump.JobNotificationsAllDispatched | JobManagement/JobEventHandler.cpp:237-258 | a queue of job notifications followed by a posted exit request is fully dispatched in order; codes without an entry build nothing; known codes get their entry's arguments |
| JobEventArgs.TryGetProcess | JobManagement/JobEventHandler.cpp:66-77 | a process is returned exactly when the id can be looked up; failures become null, not exceptions |
| JobEventArgs.TheProcess | JobManagement/JobEventHandler.cpp:56-64 | a cached process is returned without a lookup; otherwise the lookup result is stored; a null result leaves the object unchanged |
| JobEventArgs.ProcessIdStable | JobManagement/JobEventHandler.cpp:79-82 | the reported pid is the message-specific value, before and after resolving the process |
| JobEventArgs.CachedReadsStable | JobManagement/JobEventHandler.cpp:56-64 | once cached, every later read returns the same process and changes nothing, whatever the OS says |
| JobEventArgs.ReadsReturnFirstFound | JobManagement/JobEventHandler.cpp:56-64 | from an empty cache, each read returns the process of the first successful lookup so far; failed lookups are not remembered |
| JobEventArgs.Win32PathAsWritten | JobManagement/JobEventHandler.cpp:96-123 | with the handle opened for query-information access only, the path always raises, and at the module enumeration whenever the process opens |
| JobEventArgs.Win32PathAsWrittenLosesName | JobManagement/JobEventHandler.cpp:98-110 | for a process whose module is "notepad.exe", the code as written raises at `EnumProcessModules`, while the corrected accessor returns "notepad.exe" |
| JobEventArgs.Win32Path | JobManagement/JobEventHandler.cpp:96-123 | (corrected access rights) a failed open raises at the open step; a failed enumeration at the enumeration step; an empty base name at `GetModuleBaseName`; otherwise the whole base name when it fits the 1024-character buffer, else its first 1023 characters |
| JobEventArgs.Win32PathIgnoresCache | JobManagement/JobEventHandler.cpp:96-98 | the path is looked up again by pid, so the cached process never affects it |
| JobEventArgs.Win32PathKeepsName | JobManagement/JobEventHandler.cpp:106-117 | a successful path is the base name cut to the buffer: whole if shorter than 1024 characters, else exactly 1023 characters |
| JobEventArgs.Win32Name | JobManagement/JobEventHandler.cpp:84-94 | the file name of the path when both steps succeed; the decimal pid when either raises |
| JobEventArgs.FallbackNameIsPid | JobManagement/JobEventHandler.cpp:90-93 | the fallback name is all digits and parses back to the pid |
| JobEventArgs.ExitReasonId | JobManagement/JobEventHandler.cpp:127-136 | `Unknown`'s value when the process cannot be resolved; the exit code cast to the enum, whatever its value, when it can; raises exactly when a resolved process has no exit code |
| JobEventArgs.UnknownIsAmbiguous | JobManagement/JobEventHandler.cpp:129-134 | a resolved process whose exit code equals `Unknown`'s value reports the same reason as a process that cannot be found |
| JobEventArgs.ExitReasonMessage | JobManagement/JobEventHandler.cpp:138-147 | the pid-only message exactly when the process cannot be resolved; for a resolved process, it raises exactly when its name or its exit code cannot be read, and otherwise gives the detailed message with its name, its id and `ExitReasonId` |
| JobEventArgs.UnresolvedProcess | JobManagement/JobEventHandler.cpp:127-147 | for an unresolvable pid, the reason is `Unknown`'s value, the message carries only the pid, nothing is cached, and objects with the same pid give the same message |
| Decimal.ToDecimal | JobManagement/JobEventHandler.cpp:92 | the pid text is non-empty, all digits, and has no leading zero unless it is "0" |
| Decimal.ParseToDecimal | JobManagement/JobEventHandler.cpp:92 | the pid text reads back as the pid |
| Decimal.ToDecimalInjective | JobManagement/JobEventHandler.cpp:92 | different pids never print alike |
| Marshaling.InitialValid | JobManagement/Util.cpp:20 | the initial state, with the TLS index at `~0`, satisfies the bookkeeping invariant |
| Marshaling.Current | JobManagement/Util.cpp:40-45 | null while the TLS index is unallocated; otherwise the context the thread stored, or null if it stored none |
| Marshaling.CurrentAfterConstruct | JobManagement/Util.cpp:22-45 | after a construction the new context is current on its thread, unless the index was unallocated and `TlsAlloc` failed: then nothing is current and `Managed2NativeString` fails |
| Marshaling.Construct | JobManagement/Util.cpp:22-31 | the TLS index is allocated only while it is still `~0`; the new context records the thread's current one as previous and becomes current; other threads are unaffected; its handle and heap are newer than every existing handle; it starts with no strings |
| Marshaling.Destroy | JobManagement/Util.cpp:33-38 | the thread's current context goes back to the recorded previous; the heap is destroyed; every tracked string is freed in order; other threads are unaffected |
| Marshaling.ConvertString | JobManagement/Util.cpp:52-57 | a fresh string is appended to this context's list only; TLS and the free logs are untouched |
| Marshaling.Managed2NativeString | JobManagement/Util.cpp:59-62 | it succeeds exactly when the thread has a live current context; it converts through that context and leaves every other context unchanged |
| Marshaling.ConstructKeepsValid | JobManagement/Util.cpp:22-31 | a new context's handle is not alive yet and its heap is owned by no live context and was never destroyed, so the invariant (including distinct, never-destroyed heaps) is kept |
| Marshaling.DestroyKeepsValid | JobManagement/Util.cpp:33-38 | destruction frees no string twice, destroys no heap twice, and keeps the invariant |
| Marshaling.ConvertKeepsValid | JobManagement/Util.cpp:52-57 | a converted string is one no context tracks and nobody freed |
| Marshaling.RunScope | JobManagement/Util.cpp:22-38 | a scope (construct, block, destroy) keeps the invariant and the set of live contexts |
| Marshaling.RunBlock | JobManagement/Util.cpp:59-62 | conversions and nested scopes in sequence keep the invariant and the set of live contexts |
| Marshaling.ConvertFrame | JobManagement/Util.cpp:59-62 | a conversion changes only the current context's string list and grows the handle supply |
| Marshaling.ScopeRestores | JobManagement/Util.cpp:22-38 | a properly nested scope leaves the same live contexts with the same contents and the same current context on every thread; the TLS index changes at most once, on first allocation |
| Marshaling.CloseRestoresLive | JobManagement/Util.cpp:33-38 | destroying a freshly built context whose block kept the frame leaves exactly the contexts alive before it |
| Marshaling.CloseRestoresCurrent | JobManagement/Util.cpp:33-38 | after that destruction every thread's current context is the one it had before the scope |
| Marshaling.BlockFrame | JobManagement/Util.cpp:22-62 | a block changes only the current context's strings; everything it opens, it closes |
| LargeInteger.QuadPart | JobManagement/Util.cpp:76-79 | the 64-bit value's low 32 bits are `LowPart` |
| LargeInteger.ConvertToLargeInteger | JobManagement/Util.cpp:69-74 | storing the value reads back as the same `QuadPart`; the high half is negative exactly for negative values |
| LargeInteger.ConvertToInt64 | JobManagement/Util.cpp:76-79 | converting back yields the same union: the two overloads are inverse |

## Left out

- The native plumbing of `JobEventHandler` is not modelled, because it consists of calls into the OS and .NET runtime. That covers the constructor, `CreateCompletionPort` (with its two `JobException` paths), `CreateListeningThread`, the destructor and `CloseHandle`. The port is given to the pump as its list of packets.
- The `Join` with a two-second timeout and the `Abort` in `ExitListeningThread` are not modelled, because they are thread control. Only the exit packet, posted or not, is. So after a failed post the model leaves the loop waiting, where the source would abort the thread two seconds later.
- Concurrency between subscription calls on one thread and dispatch on the listening thread is not modelled. The registry is an immutable value.
- EventPump.Run: the whole run uses one registry. Listeners run synchronously on the pump thread, so a listener that subscribes or unsubscribes (a one-shot handler removing itself, say) changes the registry for every later packet; the model does not reflect subscription calls made by listeners during a dispatch.
- EventRegistry.AddDelegate: a null delegate is not modelled; every subscription call carries a listener. In the source, subscribing null first inserts the new entry (when the code had none) and then raises `NullReferenceException` at `del->GetType()`, leaving an empty entry behind; `RemoveDelegate` with null raises when the entry exists and returns silently when it does not.
- EventPump.ListeningThreadRoutine: the 64-bit overlapped word is written into a 4-byte `unsigned int`. On 64-bit Windows the other four bytes land in adjacent stack memory. The model keeps only the low 32 bits and does not model that write.
- EventRegistry.Deliver: what listeners do with the arguments is not modelled, because listener code is outside this library. Only whether each one raises is, given as a parameter. That oracle is a function of the listener and the argument values, fixed for the whole run, so a stateful listener (one that raises only on its second call, say) is not expressible: identical notifications fault alike. The `Debug::Assert(false, …)` in the catch does not throw, so a raising listener is treated as reported and the pump continues; the interactive assertion dialog, which blocks the pump thread until dismissed, is not modelled.
- A `jobEventHandler` delegate is treated as a single invocation target. Subscribing a multicast delegate that itself holds several targets is not modelled.
- JobEventArgs.ExitReasonMessage: the exact `String::Format` text, and `Enum::GetName` returning null for an undefined code, are not modelled. The message is kept as its components.
- JobEventArgs.Win32Name: `Path::GetFileNameWithoutExtension` is a parameter, because it is .NET library code. Its `None` stands for a raise.
- JobEventArgs.ExitReasonId: `Debug::Assert` does not throw, so a failed assertion is treated as reported and execution continues; the interactive dialog, which blocks the thread until dismissed, is not modelled. An undefined exit code passes through. The numeric values of `ExitReasonIds` come from the enum's declaration, which is not part of this model, so the value of `Unknown` is a parameter.
- Marshaling.Current: its `Debug::Assert` on a null context does not throw either, and its dialog is not modelled. The null result makes `Managed2NativeString` fail instead.
- `MarshalingContext::Alloc` is not modelled: it only forwards to `HeapAlloc`. `HeapCreate` failure is not modelled either. Heaps appear only as handles that are created and destroyed.
- Marshaling.ConvertString: the text of a converted string is not modelled, only the identity of the allocation. `StringToHGlobalUni` failure is not modelled. Nor is a null text: `StringToHGlobalUni(nullptr)` returns a null pointer, not a fresh allocation, so two such conversions track the same value twice and the destructor passes it to `FreeHGlobal`, which ignores it; the model gives every conversion a fresh handle, so `ConvertKeepsValid`'s freshness holds only for non-null texts.
- Marshaling.Construct: the check-then-set of the process-wide `_tlsEntry` runs without a lock. Two threads building their first context at once can both call `TlsAlloc`, and the thread whose index is overwritten loses its current context. The model runs each construction atomically on one shared state, so `ScopeRestores`' "the TLS index changes at most once" assumes sequential calls.
- Marshaling.Managed2NativeString: when the thread's current context was already destroyed (out-of-order destruction), the source dereferences freed memory. The model reports that case as a failure (`None`) rather than modelling the use after free.
- JobEventArgs.Win32Path: the rest of the model uses the corrected access rights (see Findings). `Win32PathAsWritten` keeps the code as written.
- Marshaling.RunScope: contexts destroyed out of LIFO order, or on another thread, are not modelled by the scope lemmas. `Construct` and `Destroy` alone allow any order.

## Findings

| source | as written | input that shows it | evidently intended | confidence | as-written member | corrected member |
|---|---|---|---|---|---|---|
| JobManagement/JobEventHandler.cpp:98-110 | `OpenProcess` asks for `PROCESS_QUERY_INFORMATION` only, but `EnumProcessModules` (and `GetModuleBaseName`) need `PROCESS_QUERY_INFORMATION` and `PROCESS_VM_READ` on the handle, so the enumeration is refused and `Win32Path` always raises; `Win32Name` then always falls back to the decimal pid | pid 1234 whose first module is "notepad.exe" and whose process opens and enumerates: `Win32PathAsWritten` gives `JobException` at `EnumProcessModules` | open with both rights, so that the module's base name is returned | high, from the Win32 documentation of `EnumProcessModules`; not executed | JobEventArgs.Win32PathAsWritten, JobEventArgs.Win32PathAsWrittenLosesName | JobEventArgs.Win32Path |

=== FILE: decimal.dfy ===
/** `UInt32::ToString()` as used for a process id: the invariant-culture
    decimal form, most significant digit first, no sign and no padding. */
module Decimal {

  predicate IsDigit(c: char)
  {
    '0' <= c <= '9'
  }

  function DigitChar(d: nat): (c: char)
    requires d < 10
    ensures IsDigit(c)
  {
    ['0', '1', '2', '3', '4', '5', '6', '7', '8', '9'][d]
  }

  function DigitValue(c: char): (d: nat)
    requires IsDigit(c)
    ensures d < 10
  {
    (c as int) - ('0' as int)
  }

  /** The decimal text of `n`. */
  function ToDecimal(n: nat): (s: string)
    ensures |s| > 0
    ensures forall i :: 0 <= i < |s| ==> IsDigit(s[i])
    ensures s[0] == '0' ==> n == 0 && s == "0"
    decreases n
  {
    if n < 10 then [DigitChar(n)]
    else ToDecimal(n / 10) + [DigitChar(n % 10)]
  }

  /** Reading decimal digits back into a number: the reference the text is
      checked against. */
  function ParseDecimal(s: string): nat
    requires forall i :: 0 <= i < |s| ==> IsDigit(s[i])
  {
    if |s| == 0 then 0
    else ParseDecimal(s[..|s| - 1]) * 10 + DigitValue(s[|s| - 1])
  }

  /** The text names the number: reading it back gives the number. */
  lemma {:induction false} ParseToDecimal(n: nat)
    ensures ParseDecimal(ToDecimal(n)) == n
    decreases n
  {
    var s := ToDecimal(n);
    if n < 10 {
      assert DigitValue(DigitChar(n)) == n;
    } else {
      ParseToDecimal(n / 10);
      assert s[..|s| - 1] == ToDecimal(n / 10);
      assert DigitValue(DigitChar(n % 10)) == n % 10;
    }
  }

  /** Different ids never print alike. */
  lemma ToDecimalInjective(m: nat, n: nat)
    ensures ToDecimal(m) == ToDecimal(n) ==> m == n
  {
    ParseToDecimal(m);
    ParseToDecimal(n);
  }
}

=== FILE: event_args.dfy ===
/** The derived properties of `JobProcessEventArgs` and
    `AbnormalExitProcessEventArgs` (JobEventHandler.cpp): a lazily resolved and
    cached process, a process name that falls back to the pid, and the
    classification of an abnormal exit. The operating system is an oracle: each
    read is given the answers the OS would give at that moment. */
module JobEventArgs {
  import opened NativeTypes
  import Decimal

  /** A `System::Diagnostics::Process`. Its `ProcessName` and `ExitCode`
      getters may raise (for instance `ExitCode` of a process that has not
      exited); `None` stands for a getter that raises. */
  datatype ProcessRecord = ProcessRecord(id: uint32, processName: Option<string>, exitCode: Option<int>)

  /** What `Process::GetProcessById` finds at the moment of a call: the
      processes it can open, by id. A missing id makes it raise. */
  type ProcessTable = map<uint32, ProcessRecord>

  /** What `OpenProcess`, `EnumProcessModules` and `GetModuleBaseName` answer
      for one pid at the moment of a call. A pid missing from the table cannot
      be opened. */
  datatype ModuleQuery = ModuleQuery(canOpen: bool, canEnumModules: bool, baseName: string)
  type ModuleTable = map<uint32, ModuleQuery>

  datatype NativeCall = OpenProcess | EnumProcessModules | GetModuleBaseName

  /** The exceptions the accessors can raise: a `JobException` after a failed
      native call, or a `Process` getter that raised. */
  datatype Failure = JobException(call: NativeCall) | ProcessGetterFailed

  /** The state of one `JobProcessEventArgs` object: its message-specific
      value and the `_process` cache (null until a lookup succeeds). */
  datatype JobProcessEventArgs = JobProcessEventArgs(messageSpecificValue: uint32, process: Option<ProcessRecord>)

  /** The value an accessor returns together with the object's state after
      the read (a read may fill the cache). */
  datatype Read<T> = Read(args: JobProcessEventArgs, value: T)

  /** `TryGetProcess`: `GetProcessById` with every exception swallowed, so a
      process that is gone yields null rather than an error. */
  function TryGetProcess(os: ProcessTable, processId: uint32): (p: Option<ProcessRecord>)
    ensures p.Some? <==> processId in os
    ensures p.Some? ==> p.value == os[processId]
  {
    if processId in os then Some(os[processId]) else None
  }

  /** `TheProcess`: a cached process is returned without a lookup; otherwise
      the lookup result is stored, so a null result leaves the cache empty and
      the next read looks up again. */
  function TheProcess(a: JobProcessEventArgs, os: ProcessTable): (r: Read<Option<ProcessRecord>>)
    ensures r.args.messageSpecificValue == a.messageSpecificValue
    ensures a.process.Some? ==> r == Read(a, a.process)
    ensures a.process.None? ==> r.value == TryGetProcess(os, a.messageSpecificValue) && r.args.process == r.value
    ensures r.value.None? ==> r.args == a
  {
    if a.process.Some? then Read(a, a.process)
    else
      var p := TryGetProcess(os, a.messageSpecificValue);
      Read(a.(process := p), p)
  }

  /** `TheProcessId`: the message-specific value, whatever the cache holds. */
  function TheProcessId(a: JobProcessEventArgs): uint32
  {
    a.messageSpecificValue
  }

  /** Reading the process never changes the id an object reports. */
  lemma ProcessIdStable(a: JobProcessEventArgs, os: ProcessTable)
    ensures TheProcessId(TheProcess(a, os).args) == TheProcessId(a) == a.messageSpecificValue
  {
  }

  // ----- repeated reads -----

  /** Reading `TheProcess` once per OS snapshot, in order. */
  function Reads(a: JobProcessEventArgs, snapshots: seq<ProcessTable>): Read<seq<Option<ProcessRecord>>>
    decreases |snapshots|
  {
    if |snapshots| == 0 then Read(a, [])
    else
      var first := TheProcess(a, snapshots[0]);
      var rest := Reads(first.args, snapshots[1..]);
      Read(rest.args, [first.value] + rest.value)
  }

  /** The process found by the earliest snapshot that knows the pid. */
  function FirstFound(snapshots: seq<ProcessTable>, processId: uint32): Option<ProcessRecord>
    decreases |snapshots|
  {
    if |snapshots| == 0 then None
    else if processId in snapshots[0] then Some(snapshots[0][processId])
    else FirstFound(snapshots[1..], processId)
  }

  /** Once the cache holds a process, no later read consults the OS: every read
      returns that same process and the state stays as it is. */
  lemma {:induction false} CachedReadsStable(a: JobProcessEventArgs, snapshots: seq<ProcessTable>)
    requires a.process.Some?
    ensures Reads(a, snapshots).args == a
    ensures |Reads(a, snapshots).value| == |snapshots|
    ensures forall i :: 0 <= i < |snapshots| ==> Reads(a, snapshots).value[i] == a.process
    decreases |snapshots|
  {
    if |snapshots| > 0 {
      CachedReadsStable(a, snapshots[1..]);
    }
  }

  /** Starting from an empty cache, each read returns the process of the first
      snapshot so far in which the lookup succeeded: successes are kept for
      good, failures are not remembered. */
  lemma {:induction false} ReadsReturnFirstFound(a: JobProcessEventArgs, snapshots: seq<ProcessTable>)
    requires a.process.None?
    ensures |Reads(a, snapshots).value| == |snapshots|
    ensures forall i :: 0 <= i < |snapshots| ==>
              Reads(a, snapshots).value[i] == FirstFound(snapshots[..i + 1], a.messageSpecificValue)
    ensures Reads(a, snapshots).args.process == FirstFound(snapshots, a.messageSpecificValue)
    decreases |snapshots|
  {
    if |snapshots| > 0 {
      var pid := a.messageSpecificValue;
      var first := TheProcess(a, snapshots[0]);
      var r := Reads(a, snapshots);
      forall i | 1 <= i < |snapshots|
        ensures snapshots[..i + 1][1..] == snapshots[1..][..i]
      {
      }
      if pid in snapshots[0] {
        CachedReadsStable(first.args, snapshots[1..]);
        forall i | 0 <= i < |snapshots|
          ensures r.value[i] == FirstFound(snapshots[..i + 1], pid)
        {
          assert snapshots[..i + 1][0] == snapshots[0];
        }
      } else {
        ReadsReturnFirstFound(a, snapshots[1..]);
        forall i | 0 <= i < |snapshots|
          ensures r.value[i] == FirstFound(snapshots[..i + 1], pid)
        {
          assert snapshots[..i + 1][0] == snapshots[0];
          if i > 0 {
            assert FirstFound(snapshots[..i + 1], pid) == FirstFound(snapshots[..i + 1][1..], pid);
          }
        }
      }
    }
  }

  // ----- name and path -----

  /** The `szProcessName` buffer of `Win32Path`, in characters. */
  const ModuleNameBufferChars: nat := 1024

  /** Process access rights a handle can be opened with. */
  datatype AccessRight = QueryInformation | VmRead

  /** The rights `EnumProcessModules` and `GetModuleBaseName` need on the
      process handle: both query-information and VM-read access. */
  const ModuleQueryRights: set<AccessRight> := {QueryInformation, VmRead}

  /** The rights `Win32Path` asks `OpenProcess` for (`PROCESS_QUERY_INFORMATION`). */
  const RightsAsWritten: set<AccessRight> := {QueryInformation}

  /** The body of `Win32Path` for a handle opened with `rights`: open the
      process by its id (not through the cache), take its first module and ask
      for that module's base name. Each failed call raises a `JobException`;
      a module call on a handle without the rights it needs fails;
      `GetModuleBaseName` copies at most one character less than the buffer,
      and a copy of length zero counts as failure. */
  function Win32PathWith(a: JobProcessEventArgs, mods: ModuleTable, rights: set<AccessRight>): Result<string, Failure>
  {
    var pid := TheProcessId(a);
    if pid !in mods || !mods[pid].canOpen then Err(JobException(OpenProcess))
    else if !(ModuleQueryRights <= rights) || !mods[pid].canEnumModules then Err(JobException(EnumProcessModules))
    else
      var name := mods[pid].baseName;
      var copied := if |name| < ModuleNameBufferChars then name else name[..ModuleNameBufferChars - 1];
      if |copied| == 0 then Err(JobException(GetModuleBaseName)) else Ok(copied)
  }

  /** `Win32Path` as written: the handle carries query-information access
      only, so the module enumeration is refused whenever the process opens. */
  function Win32PathAsWritten(a: JobProcessEventArgs, mods: ModuleTable): (r: Result<string, Failure>)
    ensures r.Err?
    ensures TheProcessId(a) in mods && mods[TheProcessId(a)].canOpen ==> r == Err(JobException(EnumProcessModules))
  {
    Win32PathWith(a, mods, RightsAsWritten)
  }

  /** A process whose first module is named "notepad.exe": the path the
      accessor is meant to report is never reached as written. */
  lemma Win32PathAsWrittenLosesName()
    ensures var a := JobProcessEventArgs(1234, None);
            var mods := map[1234 := ModuleQuery(true, true, "notepad.exe")];
            Win32PathAsWritten(a, mods) == Err(JobException(EnumProcessModules))
            && Win32Path(a, mods) == Ok("notepad.exe")
  {
  }

  /** `Win32Path` with the handle opened for both rights the module calls
      need: the base name of the process's first module, cut to the buffer. */
  function Win32Path(a: JobProcessEventArgs, mods: ModuleTable): (r: Result<string, Failure>)
    ensures TheProcessId(a) !in mods || !mods[TheProcessId(a)].canOpen <==> r == Err(JobException(OpenProcess))
    ensures TheProcessId(a) in mods && mods[TheProcessId(a)].canOpen && !mods[TheProcessId(a)].canEnumModules ==>
              r == Err(JobException(EnumProcessModules))
    ensures TheProcessId(a) in mods && mods[TheProcessId(a)].canOpen && mods[TheProcessId(a)].canEnumModules ==>
              && (|mods[TheProcessId(a)].baseName| == 0 <==> r == Err(JobException(GetModuleBaseName)))
              && (0 < |mods[TheProcessId(a)].baseName| < ModuleNameBufferChars ==> r == Ok(mods[TheProcessId(a)].baseName))
              && (|mods[TheProcessId(a)].baseName| >= ModuleNameBufferChars ==>
                    r == Ok(mods[TheProcessId(a)].baseName[..ModuleNameBufferChars - 1]))
    ensures r.Ok? ==> 0 < |r.value| < ModuleNameBufferChars && r.value <= mods[TheProcessId(a)].baseName
  {
    Win32PathWith(a, mods, ModuleQueryRights)
  }

  /** The path does not depend on the cached process: it is looked up again
      by id, so the same pid gives the same path whatever the cache holds. */
  lemma Win32PathIgnoresCache(a: JobProcessEventArgs, b: JobProcessEventArgs, mods: ModuleTable)
    requires a.messageSpecificValue == b.messageSpecificValue
    ensures Win32Path(a, mods) == Win32Path(b, mods)
  {
  }

  /** A base name that fits the buffer is reported whole, and a longer one is
      cut to exactly 1023 characters: the reported name identifies the module
      up to the buffer size. */
  lemma Win32PathKeepsName(a: JobProcessEventArgs, mods: ModuleTable)
    requires Win32Path(a, mods).Ok?
    ensures |Win32Path(a, mods).value| == if |mods[TheProcessId(a)].baseName| < ModuleNameBufferChars
                                           then |mods[TheProcessId(a)].baseName| else ModuleNameBufferChars - 1
    ensures Win32Path(a, mods).value == mods[TheProcessId(a)].baseName[..|Win32Path(a, mods).value|]
  {
  }

  /** `Win32Name`: the path helper applied to `Win32Path`; any exception, from
      either, is replaced by the decimal text of the pid. `fileNameWithoutExtension`
      stands for `Path::GetFileNameWithoutExtension`, `None` for a raise. */
  function Win32Name(a: JobProcessEventArgs, mods: ModuleTable, fileNameWithoutExtension: string -> Option<string>): (name: string)
    ensures Win32Path(a, mods).Err? ==> name == Decimal.ToDecimal(TheProcessId(a))
    ensures Win32Path(a, mods).Ok? && fileNameWithoutExtension(Win32Path(a, mods).value).None? ==>
              name == Decimal.ToDecimal(TheProcessId(a))
    ensures Win32Path(a, mods).Ok? && fileNameWithoutExtension(Win32Path(a, mods).value).Some? ==>
              name == fileNameWithoutExtension(Win32Path(a, mods).value).value
  {
    match Win32Path(a, mods)
    case Ok(path) =>
      (match fileNameWithoutExtension(path)
       case Some(n) => n
       case None => Decimal.ToDecimal(TheProcessId(a)))
    case Err(_) => Decimal.ToDecimal(TheProcessId(a))
  }

  /** The fallback name identifies the process: it reads back as the pid. */
  lemma FallbackNameIsPid(a: JobProcessEventArgs, mods: ModuleTable, fileNameWithoutExtension: string -> Option<string>)
    requires Win32Path(a, mods).Err?
    ensures forall i :: 0 <= i < |Win32Name(a, mods, fileNameWithoutExtension)| ==> Decimal.IsDigit(Win32Name(a, mods, fileNameWithoutExtension)[i])
    ensures Decimal.ParseDecimal(Win32Name(a, mods, fileNameWithoutExtension)) == a.messageSpecificValue
  {
    Decimal.ParseToDecimal(a.messageSpecificValue);
  }

  // ----- AbnormalExitProcessEventArgs -----

  /** An `ExitReasonIds` value: the enum's underlying integer. */
  type ExitReason = int

  /** `ExitReasonId`: `unknown` (the value of `ExitReasonIds::Unknown`) when
      the process cannot be resolved; otherwise the exit code cast to
      `ExitReasonIds`, which raises if the process has no exit code to give.
      The cast keeps every code, including codes outside the enum: the debug
      assertion that they are defined does not throw; its dialog is not modelled. */
  function ExitReasonId(a: JobProcessEventArgs, os: ProcessTable, unknown: ExitReason): (r: Read<Result<ExitReason, Failure>>)
    ensures r.args == TheProcess(a, os).args
    ensures TheProcess(a, os).value.None? ==> r.value == Ok(unknown)
    ensures TheProcess(a, os).value.Some? && TheProcess(a, os).value.value.exitCode.Some? ==>
              r.value == Ok(TheProcess(a, os).value.value.exitCode.value)
    ensures r.value.Err? <==> TheProcess(a, os).value.Some? && TheProcess(a, os).value.value.exitCode.None?
  {
    var p := TheProcess(a, os);
    match p.value
    case None => Read(p.args, Ok(unknown))
    case Some(process) =>
      (match process.exitCode
       case None => Read(p.args, Err(ProcessGetterFailed))
       case Some(code) => Read(p.args, Ok(code)))
  }

  /** `Unknown` does not tell an unresolved process apart: a resolved process
      whose exit code is `Unknown`'s value reports the same reason as one that
      could not be found. */
  lemma UnknownIsAmbiguous(a: JobProcessEventArgs, os: ProcessTable, unknown: ExitReason, p: ProcessRecord)
    requires a.process.None? && a.messageSpecificValue !in os
    requires p.exitCode == Some(unknown)
    ensures ExitReasonId(a, os, unknown).value == ExitReasonId(a, os[a.messageSpecificValue := p], unknown).value
  {
  }

  /** The content of `ExitReasonMessage`: the pid alone for an unresolved
      process; otherwise the process name, its id and the reason. */
  datatype ExitMessage = ProcessIdOnly(processId: uint32) | Detailed(processName: string, processId: uint32, reason: ExitReason)

  /** `ExitReasonMessage`: the pid-only message when the process cannot be
      resolved; otherwise the process's name, id and `ExitReasonId`, read in
      that order, any of whose getters may raise. */
  function ExitReasonMessage(a: JobProcessEventArgs, os: ProcessTable, unknown: ExitReason): (r: Read<Result<ExitMessage, Failure>>)
    ensures r.args == TheProcess(a, os).args
    ensures TheProcess(a, os).value.None? <==> r.value == Ok(ProcessIdOnly(a.messageSpecificValue))
    ensures TheProcess(a, os).value.Some? ==>
              (r.value.Err? <==> TheProcess(a, os).value.value.processName.None? || TheProcess(a, os).value.value.exitCode.None?)
    ensures TheProcess(a, os).value.Some? && r.value.Ok? ==> r.value.value.Detailed?
    ensures r.value.Ok? && r.value.value.Detailed? ==>
              && TheProcess(a, os).value.Some?
              && r.value.value.processId == TheProcess(a, os).value.value.id
              && Some(r.value.value.processName) == TheProcess(a, os).value.value.processName
              && ExitReasonId(a, os, unknown).value == Ok(r.value.value.reason)
  {
    var p := TheProcess(a, os);
    match p.value
    case None => Read(p.args, Ok(ProcessIdOnly(a.messageSpecificValue)))
    case Some(process) =>
      (match process.processName
       case None => Read(p.args, Err(ProcessGetterFailed))
       case Some(name) =>
         var reason := ExitReasonId(p.args, os, unknown);
         (match reason.value
          case Err(e) => Read(reason.args, Err(e))
          case Ok(id) => Read(reason.args, Ok(Detailed(name, process.id, id)))))
  }

  /** A process that cannot be resolved: the reason is the value of `Unknown`, the message
      carries only the pid, nothing is cached, and two objects with the same
      pid give the same message. */
  lemma UnresolvedProcess(a: JobProcessEventArgs, b: JobProcessEventArgs, os: ProcessTable, unknown: ExitReason)
    requires a.process.None? && b.process.None?
    requires a.messageSpecificValue !in os
    requires b.messageSpecificValue == a.messageSpecificValue
    ensures ExitReasonId(a, os, unknown) == Read(a, Ok(unknown))
    ensures ExitReasonMessage(a, os, unknown) == Read(a, Ok(ProcessIdOnly(a.messageSpecificValue)))
    ensures ExitReasonMessage(b, os, unknown).value == ExitReasonMessage(a, os, unknown).value
  {
  }
}

=== FILE: event_pump.dfy ===
/** The listening loop of JobEventHandler.cpp (`ListeningThreadRoutine`) and
    its shutdown request (`ExitListeningThread`). The thread and the blocking
    `GetQueuedCompletionStatus` are replaced by the finite list of completion
    packets the wait would return, in queue order. */
module EventPump {
  import opened NativeTypes
  import opened EventRegistry

  /** One return of `GetQueuedCompletionStatus`: whether it succeeded, the
      transferred-bytes word (the native event code), the completion key and
      the address-sized overlapped word (the message-specific value). */
  datatype Packet = Packet(ok: bool, nativeEvent: uint32, completionKey: nat, overlapped: nat)

  /** The key the job is associated with the port under: every real job
      notification carries it. */
  const AssociatedKey: nat := 0

  /** The key `ExitListeningThread` posts. */
  const ExitKey: nat := 1

  /** A job notification as the port delivers it. */
  function JobNotification(nativeEvent: uint32, messageSpecificValue: uint32): Packet
  {
    Packet(true, nativeEvent, AssociatedKey, messageSpecificValue)
  }

  /** `PostQueuedCompletionStatus(port, 0, 1, 0)`. */
  const ExitRequest: Packet := Packet(true, 0, ExitKey, 0)

  /** The loop reads the overlapped word into an `unsigned int`: its low 32 bits. */
  function MessageSpecificValue(p: Packet): uint32
  {
    p.overlapped % TwoTo32
  }

  /** A packet the loop does not dispatch: a failed wait or a non-zero key. */
  predicate Stops(p: Packet)
  {
    !p.ok || p.completionKey != 0
  }

  /** How the loop ended: it returned on an exit key, it raised a
      `JobException` on a failed wait, or it is still blocked waiting. */
  datatype PumpEnd = Exited | WaitFailed | Waiting

  /** What the loop did: the packets it dispatched, one `Invoke` record per
      dispatched packet, and how it ended. */
  datatype PumpRun = PumpRun(dispatched: seq<Packet>, dispatches: seq<Dispatch>, end: PumpEnd)

  /** The position of the first packet that stops the loop, or the length of
      the list if none does. */
  function FirstStop(ps: seq<Packet>): (n: nat)
    ensures n <= |ps|
    ensures forall i :: 0 <= i < n ==> !Stops(ps[i])
    ensures n < |ps| ==> Stops(ps[n])
  {
    if |ps| == 0 then 0
    else if Stops(ps[0]) then 0
    else 1 + FirstStop(ps[1..])
  }

  /** `this->Invoke(nativeEvent, messageSpecificValue)` for one packet. */
  function DispatchOf(reg: Registry, p: Packet, throws: Throws): Dispatch
  {
    Invoke(reg, p.nativeEvent, MessageSpecificValue(p), throws)
  }

  /** The outcome a packet stopping the loop produces. */
  function EndOf(p: Packet): PumpEnd
  {
    if !p.ok then WaitFailed else if p.completionKey != 0 then Exited else Waiting
  }

  /** `ListeningThreadRoutine` as a fold over the packets: dispatch each packet
      through `Invoke` until a failed wait or a non-zero key. */
  function Run(reg: Registry, ps: seq<Packet>, throws: Throws): (r: PumpRun)
    ensures r.dispatched == ps[..FirstStop(ps)]
    ensures |r.dispatches| == |r.dispatched|
    ensures FirstStop(ps) == |ps| <==> r.end == Waiting
    ensures FirstStop(ps) < |ps| ==> r.end == EndOf(ps[FirstStop(ps)])
    decreases |ps|
  {
    if |ps| == 0 then PumpRun([], [], Waiting)
    else if !ps[0].ok then PumpRun([], [], WaitFailed)
    else if ps[0].completionKey != 0 then PumpRun([], [], Exited)
    else
      var d := DispatchOf(reg, ps[0], throws);
      var rest := Run(reg, ps[1..], throws);
      assert ps[..FirstStop(ps)] == [ps[0]] + ps[1..][..FirstStop(ps[1..])];
      PumpRun([ps[0]] + rest.dispatched, [d] + rest.dispatches, rest.end)
  }

  /** The i-th dispatch record is the registry's `Invoke` for the i-th
      dispatched packet: packets are dispatched in arrival order, each once. */
  lemma {:induction false} RunDispatchesInOrder(reg: Registry, ps: seq<Packet>, throws: Throws)
    ensures forall i :: 0 <= i < |Run(reg, ps, throws).dispatched| ==>
              Run(reg, ps, throws).dispatches[i] == DispatchOf(reg, Run(reg, ps, throws).dispatched[i], throws)
    decreases |ps|
  {
    if |ps| > 0 && !Stops(ps[0]) {
      RunDispatchesInOrder(reg, ps[1..], throws);
      var r := Run(reg, ps, throws);
      var rest := Run(reg, ps[1..], throws);
      assert r.dispatched == [ps[0]] + rest.dispatched;
      assert r.dispatches == [DispatchOf(reg, ps[0], throws)] + rest.dispatches;
    }
  }

  /** A run is determined by what it dispatched, the dispatch records and how
      it ended: any record with the fold's properties is the fold's result. */
  lemma RunDetermined(reg: Registry, ps: seq<Packet>, throws: Throws, r: PumpRun)
    requires r.dispatched == ps[..FirstStop(ps)]
    requires |r.dispatches| == |r.dispatched|
    requires forall i :: 0 <= i < |r.dispatched| ==>
               r.dispatches[i] == DispatchOf(reg, r.dispatched[i], throws)
    requires FirstStop(ps) == |ps| ==> r.end == Waiting
    requires FirstStop(ps) < |ps| ==> r.end == EndOf(ps[FirstStop(ps)])
    ensures r == Run(reg, ps, throws)
  {
    var f := Run(reg, ps, throws);
    RunDispatchesInOrder(reg, ps, throws);
    assert r.dispatches == f.dispatches;
  }

  /** The loop as written, with a `while`: the same run as the fold. */
  method ListeningThreadRoutine(reg: Registry, ps: seq<Packet>, throws: Throws) returns (r: PumpRun)
    ensures r == Run(reg, ps, throws)
    ensures r.end == Exited ==> exists i :: 0 <= i < |ps| && ps[i].ok && ps[i].completionKey != 0
  {
    var dispatched: seq<Packet> := [];
    var dispatches: seq<Dispatch> := [];
    var i := 0;
    var end := Waiting;
    while i < |ps|
      invariant i <= FirstStop(ps)
      invariant dispatched == ps[..i]
      invariant |dispatches| == i
      invariant forall j :: 0 <= j < i ==>
                  dispatches[j] == DispatchOf(reg, ps[j], throws)
      decreases |ps| - i
    {
      var p := ps[i];
      if !p.ok {
        end := WaitFailed;
        break;
      }
      if p.completionKey != 0 {
        end := Exited;
        break;
      }
      var d := Invoke(reg, p.nativeEvent, MessageSpecificValue(p), throws);
      dispatched := dispatched + [p];
      dispatches := dispatches + [d];
      i := i + 1;
    }
    assert i == FirstStop(ps);
    r := PumpRun(dispatched, dispatches, end);
    RunDetermined(reg, ps, throws, r);
  }

  /** `ExitListeningThread`: the exit packet joins the back of the queue when
      `PostQueuedCompletionStatus` succeeds (`posted`). Its result is not
      checked, so a failed post leaves the queue as it was and goes unnoticed. */
  function ExitListeningThread(queue: seq<Packet>, posted: bool): (q: seq<Packet>)
    ensures posted ==> |q| == |queue| + 1 && q[..|queue|] == queue && q[|queue|] == ExitRequest
    ensures !posted ==> q == queue
  {
    if posted then queue + [ExitRequest] else queue
  }

  /** A posted exit request always ends the loop: it returns on the exit key
      (or earlier, on a failed wait or an earlier non-zero key), having
      dispatched only packets that were queued before it, and never the exit
      packet itself. When the post fails, a queue of job notifications leaves
      the loop waiting. */
  lemma ExitRequestEndsLoop(reg: Registry, queue: seq<Packet>, throws: Throws, posted: bool)
    ensures posted ==> Run(reg, ExitListeningThread(queue, posted), throws).end != Waiting
    ensures posted && FirstStop(queue) == |queue| ==>
              Run(reg, ExitListeningThread(queue, posted), throws).end == Exited
              && Run(reg, ExitListeningThread(queue, posted), throws).dispatched == queue
    ensures !posted && FirstStop(queue) == |queue| ==>
              Run(reg, ExitListeningThread(queue, posted), throws).end == Waiting
    ensures ExitRequest !in Run(reg, ExitListeningThread(queue, posted), throws).dispatched
  {
    var q := ExitListeningThread(queue, posted);
    if posted {
      assert Stops(q[|queue|]);
      assert FirstStop(q) <= |queue|;
      if FirstStop(queue) == |queue| {
        assert q[..|queue|] == queue;
      }
    } else {
      assert forall i :: 0 <= i < |q[..FirstStop(q)]| ==> !Stops(q[..FirstStop(q)][i]);
    }
  }

  /** Nothing after the stopping packet matters: more packets queued behind it
      change neither what was dispatched nor how the loop ended. */
  lemma {:induction false} NothingAfterStop(reg: Registry, ps: seq<Packet>, more: seq<Packet>, throws: Throws)
    requires FirstStop(ps) < |ps|
    ensures Run(reg, ps + more, throws) == Run(reg, ps, throws)
    decreases |ps|
  {
    assert (ps + more)[0] == ps[0];
    if !Stops(ps[0]) {
      assert (ps + more)[1..] == ps[1..] + more;
      NothingAfterStop(reg, ps[1..], more, throws);
    }
  }

  /** Listener exceptions never stop the loop: which packets are dispatched and
      how the loop ends do not depend on what the listeners do. */
  lemma ListenerFailuresDoNotStopLoop(reg: Registry, ps: seq<Packet>, throws1: Throws, throws2: Throws)
    ensures Run(reg, ps, throws1).dispatched == Run(reg, ps, throws2).dispatched
    ensures Run(reg, ps, throws1).end == Run(reg, ps, throws2).end
  {
  }

  /** Real job notifications never stop the loop; in a queue of them followed by
      a posted exit request, each is dispatched, in arrival order, to exactly the
      entry registered for its code, and codes without an entry build nothing. */
  lemma JobNotificationsAllDispatched(reg: Registry, queue: seq<Packet>, throws: Throws)
    requires forall i :: 0 <= i < |queue| ==> queue[i] == JobNotification(queue[i].nativeEvent, MessageSpecificValue(queue[i]))
    ensures Run(reg, ExitListeningThread(queue, true), throws).end == Exited
    ensures Run(reg, ExitListeningThread(queue, true), throws).dispatched == queue
    ensures forall i :: 0 <= i < |queue| && queue[i].nativeEvent !in reg ==>
              Run(reg, ExitListeningThread(queue, true), throws).dispatches[i] == Dispatch(None, [], None)
    ensures forall i :: 0 <= i < |queue| && queue[i].nativeEvent in reg ==>
              Run(reg, ExitListeningThread(queue, true), throws).dispatches[i].args
                == Some(EventArgs(reg[queue[i].nativeEvent].argsType, MessageSpecificValue(queue[i])))
  {
    assert forall i :: 0 <= i < |queue| ==> !Stops(queue[i]);
    assert FirstStop(queue) == |queue|;
    ExitRequestEndsLoop(reg, queue, throws, true);
    RunDispatchesInOrder(reg, ExitListeningThread(queue, true), throws);
  }
}

=== FILE: event_registry.dfy ===
/** The subscription registry of JobEventHandler.cpp: one `EventEntry<TEventArgs>`
    per native job event code, each holding the ordered invocation list of its
    multicast `OnJobEvent` delegate, and the map from code to entry. */
module EventRegistry {
  import opened NativeTypes

  /** An event-argument class (`TEventArgs`), identified by its name, together
      with its static `NativeEvent` code. */
  datatype ArgsType = ArgsType(name: string, nativeEvent: uint32)

  /** A `jobEventHandler<TEventArgs ^>` delegate: its identity (target and
      method) and the argument type its signature names. */
  datatype Listener = Listener(id: nat, argsType: ArgsType)

  /** `EventEntry<TEventArgs>`: the invocation list of `OnJobEvent`, in
      subscription order. */
  datatype Entry = Entry(argsType: ArgsType, listeners: seq<Listener>)

  /** `_eventMap`: native event code to entry. */
  type Registry = map<uint32, Entry>

  /** The `TEventArgs` object built for one dispatch. */
  datatype EventArgs = EventArgs(argsType: ArgsType, messageSpecificValue: uint32)

  /** One listener invocation. */
  datatype Call = Call(listener: Listener, args: EventArgs)

  /** What one `Invoke` did: the arguments it constructed (if any), the
      listeners it called in order, and the listener whose exception was caught
      and reported through the debug assertion (if any). */
  datatype Dispatch = Dispatch(args: Option<EventArgs>, calls: seq<Call>, fault: Option<Listener>)

  /** Whether a listener raises an exception when called with given arguments;
      listener code is not part of this model, so it is a parameter. */
  type Throws = (Listener, EventArgs) -> bool

  /** Every entry sits under its own argument type's code and holds only
      delegates of that argument type. */
  ghost predicate WellTyped(reg: Registry)
  {
    forall code :: code in reg ==>
      && reg[code].argsType.nativeEvent == code
      && forall i :: 0 <= i < |reg[code].listeners| ==> reg[code].listeners[i].argsType == reg[code].argsType
  }

  // ----- the multicast invocation list -----

  /** The position of the last occurrence of `x`. */
  function LastIndex(xs: seq<Listener>, x: Listener): (i: nat)
    requires x in xs
    ensures i < |xs| && xs[i] == x
    ensures x !in xs[i + 1..]
  {
    if xs[|xs| - 1] == x then |xs| - 1
    else
      assert xs == xs[..|xs| - 1] + [xs[|xs| - 1]];
      var i := LastIndex(xs[..|xs| - 1], x);
      assert xs[i + 1..] == xs[..|xs| - 1][i + 1..] + [xs[|xs| - 1]];
      i
  }

  /** `Delegate::Remove` for a single delegate: drops the LAST occurrence of
      `x`; a list without `x` is returned unchanged. */
  function RemoveLast(xs: seq<Listener>, x: Listener): (r: seq<Listener>)
    ensures x !in xs ==> r == xs
    ensures x in xs ==> exists i :: 0 <= i < |xs| && xs[i] == x && x !in xs[i + 1..] && r == xs[..i] + xs[i + 1..]
    ensures multiset(r) == multiset(xs) - multiset{x}
    ensures forall i :: 0 <= i < |r| ==> r[i] in xs
  {
    if x in xs then
      var i := LastIndex(xs, x);
      assert xs == xs[..i] + [x] + xs[i + 1..];
      xs[..i] + xs[i + 1..]
    else
      assert multiset(xs)[x] == 0;
      xs
  }

  /** Subscribing a delegate and then unsubscribing it restores the list. */
  lemma RemoveUndoesAppend(xs: seq<Listener>, x: Listener)
    ensures RemoveLast(xs + [x], x) == xs
  {
    assert (xs + [x])[..|xs + [x]| - 1] == xs;
  }

  /** A multicast delegate call: the listeners run in order on the same
      arguments; the first one that raises ends the invocation and its
      exception is what the caller sees. */
  function Deliver(ls: seq<Listener>, args: EventArgs, throws: Throws): (d: (seq<Call>, Option<Listener>))
    ensures |d.0| <= |ls|
    ensures forall i :: 0 <= i < |d.0| ==> d.0[i] == Call(ls[i], args)
    ensures forall i :: 0 <= i < |d.0| - 1 ==> !throws(ls[i], args)
    ensures d.1.None? <==> |d.0| == |ls| && forall i :: 0 <= i < |ls| ==> !throws(ls[i], args)
    ensures d.1.Some? ==> 0 < |d.0| && d.1.value == ls[|d.0| - 1] && throws(d.1.value, args)
  {
    if |ls| == 0 then ([], None)
    else if throws(ls[0], args) then ([Call(ls[0], args)], Some(ls[0]))
    else
      var rest := Deliver(ls[1..], args, throws);
      assert forall i :: 1 <= i < |ls| ==> ls[i] == ls[1..][i - 1];
      ([Call(ls[0], args)] + rest.0, rest.1)
  }

  // ----- EventEntry<TEventArgs> -----

  /** `EventEntry::AddDelegate`: a delegate of the entry's argument type is
      appended; any other one fails the debug assertion and its
      `dynamic_cast` yields null, so `+=` leaves the list as it was. */
  function EntryAdd(e: Entry, del: Listener): (r: Entry)
    ensures r.argsType == e.argsType
    ensures del.argsType == e.argsType ==> r.listeners == e.listeners + [del]
    ensures del.argsType != e.argsType ==> r == e
  {
    if del.argsType == e.argsType then e.(listeners := e.listeners + [del]) else e
  }

  /** `EventEntry::RemoveDelegate`: a delegate of the entry's argument type
      is removed with `-=`; a mismatched one casts to null and changes nothing. */
  function EntryRemove(e: Entry, del: Listener): (r: Entry)
    ensures r.argsType == e.argsType
    ensures del.argsType != e.argsType || del !in e.listeners ==> r == e
    ensures multiset(r.listeners) <= multiset(e.listeners)
    ensures del.argsType == e.argsType ==> multiset(r.listeners) == multiset(e.listeners) - multiset{del}
    ensures del.argsType == e.argsType && del in e.listeners ==>
              exists i :: 0 <= i < |e.listeners| && e.listeners[i] == del && del !in e.listeners[i + 1..]
                          && r.listeners == e.listeners[..i] + e.listeners[i + 1..]
  {
    if del.argsType == e.argsType then e.(listeners := RemoveLast(e.listeners, del)) else e
  }

  /** `EventEntry::Invoke`: constructs the arguments and raises `OnJobEvent`
      inside one try block. An exception from a listener is caught and
      reported, never propagated: the result is a `Dispatch`, not a `Result`. */
  function EntryInvoke(e: Entry, messageSpecificValue: uint32, throws: Throws): (d: Dispatch)
    ensures d.args == Some(EventArgs(e.argsType, messageSpecificValue))
    ensures |d.calls| <= |e.listeners|
    ensures forall i :: 0 <= i < |d.calls| ==> d.calls[i] == Call(e.listeners[i], d.args.value)
    ensures forall i :: 0 <= i < |d.calls| - 1 ==> !throws(e.listeners[i], d.args.value)
    ensures d.fault.None? <==> |d.calls| == |e.listeners| && forall i :: 0 <= i < |e.listeners| ==> !throws(e.listeners[i], d.args.value)
    ensures d.fault.Some? ==> 0 < |d.calls| && d.fault.value == e.listeners[|d.calls| - 1] && throws(d.fault.value, d.args.value)
  {
    var args := EventArgs(e.argsType, messageSpecificValue);
    var (calls, fault) := Deliver(e.listeners, args, throws);
    Dispatch(Some(args), calls, fault)
  }

  // ----- JobEventHandler -----

  /** `JobEventHandler::AddDelegate<TEventArgs>`: reuse the entry for the
      delegate's code, or create an empty one of the delegate's argument type
      first; then add the delegate to it. */
  function AddDelegate(reg: Registry, del: Listener): (r: Registry)
    ensures r.Keys == reg.Keys + {del.argsType.nativeEvent}
    ensures forall code :: code in reg && code != del.argsType.nativeEvent ==> r[code] == reg[code]
    ensures del.argsType.nativeEvent !in reg ==> r[del.argsType.nativeEvent] == Entry(del.argsType, [del])
    ensures del.argsType.nativeEvent in reg ==> r[del.argsType.nativeEvent] == EntryAdd(reg[del.argsType.nativeEvent], del)
    ensures WellTyped(reg) ==> WellTyped(r)
  {
    var code := del.argsType.nativeEvent;
    var entry := if code in reg then reg[code] else Entry(del.argsType, []);
    reg[code := EntryAdd(entry, del)]
  }

  /** `JobEventHandler::RemoveDelegate<TEventArgs>`: nothing happens when the
      code has no entry; otherwise only that entry's list is edited, and the
      entry itself stays. */
  function RemoveDelegate(reg: Registry, del: Listener): (r: Registry)
    ensures r.Keys == reg.Keys
    ensures del.argsType.nativeEvent !in reg ==> r == reg
    ensures forall code :: code in reg && code != del.argsType.nativeEvent ==> r[code] == reg[code]
    ensures del.argsType.nativeEvent in reg ==> r[del.argsType.nativeEvent] == EntryRemove(reg[del.argsType.nativeEvent], del)
    ensures WellTyped(reg) ==> WellTyped(r)
  {
    var code := del.argsType.nativeEvent;
    if code !in reg then reg
    else
      var e := reg[code];
      var e' := EntryRemove(e, del);
      assert forall i :: 0 <= i < |e'.listeners| ==> e'.listeners[i] in e.listeners;
      reg[code := e']
  }

  /** `JobEventHandler::Invoke`: a code without an entry constructs no
      arguments and calls no listener; otherwise the entry dispatches. */
  function Invoke(reg: Registry, nativeEvent: uint32, messageSpecificValue: uint32, throws: Throws): (d: Dispatch)
    ensures nativeEvent !in reg ==> d == Dispatch(None, [], None)
    ensures nativeEvent in reg ==> d.args == Some(EventArgs(reg[nativeEvent].argsType, messageSpecificValue))
    ensures nativeEvent in reg ==> |d.calls| <= |reg[nativeEvent].listeners|
    ensures nativeEvent in reg ==> forall i :: 0 <= i < |d.calls| ==> d.calls[i] == Call(reg[nativeEvent].listeners[i], d.args.value)
    ensures nativeEvent in reg ==> forall i :: 0 <= i < |d.calls| - 1 ==> !throws(reg[nativeEvent].listeners[i], d.args.value)
    ensures nativeEvent in reg ==>
              (d.fault.None? <==> |d.calls| == |reg[nativeEvent].listeners| && forall i :: 0 <= i < |reg[nativeEvent].listeners| ==> !throws(reg[nativeEvent].listeners[i], d.args.value))
    ensures nativeEvent in reg && d.fault.Some? ==>
              0 < |d.calls| && d.fault.value == reg[nativeEvent].listeners[|d.calls| - 1] && throws(d.fault.value, d.args.value)
    ensures d.args.None? ==> d.calls == []
  {
    if nativeEvent !in reg then Dispatch(None, [], None)
    else EntryInvoke(reg[nativeEvent], messageSpecificValue, throws)
  }

  /** On one entry, `-=` right after `+=` of the same delegate is no change. */
  lemma EntryRemoveUndoesAdd(e: Entry, del: Listener)
    ensures EntryRemove(EntryAdd(e, del), del) == e
  {
    if del.argsType == e.argsType {
      RemoveUndoesAppend(e.listeners, del);
    }
  }

  /** Unsubscribing a delegate right after subscribing it restores the
      registry, except that an entry created by the subscription stays behind,
      empty: `RemoveDelegate` never deletes entries. */
  lemma UnsubscribeUndoesSubscribe(reg: Registry, del: Listener)
    ensures del.argsType.nativeEvent in reg ==> RemoveDelegate(AddDelegate(reg, del), del) == reg
    ensures del.argsType.nativeEvent !in reg ==>
              RemoveDelegate(AddDelegate(reg, del), del) == reg[del.argsType.nativeEvent := Entry(del.argsType, [])]
  {
    var code := del.argsType.nativeEvent;
    var e := if code in reg then reg[code] else Entry(del.argsType, []);
    var added := reg[code := EntryAdd(e, del)];
    EntryRemoveUndoesAdd(e, del);
    AddDelegateAt(reg, del);
    RemoveDelegateAt(added, del);
    MapUpdateTwice(reg, code, EntryAdd(e, del), e);
    if code in reg {
      MapUpdateSame(reg, code);
    }
  }

  lemma MapUpdateTwice(m: Registry, k: uint32, a: Entry, b: Entry)
    ensures m[k := a][k := b] == m[k := b]
  {
  }

  lemma MapUpdateSame(m: Registry, k: uint32)
    requires k in m
    ensures m[k := m[k]] == m
  {
  }

  lemma AddDelegateAt(reg: Registry, del: Listener)
    ensures AddDelegate(reg, del) == reg[del.argsType.nativeEvent := EntryAdd(
              if del.argsType.nativeEvent in reg then reg[del.argsType.nativeEvent] else Entry(del.argsType, []), del)]
  {
  }

  lemma RemoveDelegateAt(reg: Registry, del: Listener)
    requires del.argsType.nativeEvent in reg
    ensures RemoveDelegate(reg, del) == reg[del.argsType.nativeEvent := EntryRemove(reg[del.argsType.nativeEvent], del)]
  {
  }

  /** When no listener raises, every subscribed delegate is called exactly
      once, in subscription order, with the same fresh arguments. */
  lemma InvokeCallsAllInOrder(reg: Registry, nativeEvent: uint32, value: uint32, throws: Throws)
    requires nativeEvent in reg
    requires forall i :: 0 <= i < |reg[nativeEvent].listeners| ==>
               !throws(reg[nativeEvent].listeners[i], EventArgs(reg[nativeEvent].argsType, value))
    ensures Invoke(reg, nativeEvent, value, throws).fault == None
    ensures |Invoke(reg, nativeEvent, value, throws).calls| == |reg[nativeEvent].listeners|
    ensures forall i :: 0 <= i < |reg[nativeEvent].listeners| ==>
              Invoke(reg, nativeEvent, value, throws).calls[i] == Call(reg[nativeEvent].listeners[i], EventArgs(reg[nativeEvent].argsType, value))
  {
  }

  // ----- sequences of subscription calls -----

  /** A call on the subscriber side. */
  datatype Subscription = Subscribe(del: Listener) | Unsubscribe(del: Listener)

  /** One `Subscribe` or `Unsubscribe` call. */
  function Step(reg: Registry, op: Subscription): Registry
  {
    match op
    case Subscribe(del) => AddDelegate(reg, del)
    case Unsubscribe(del) => RemoveDelegate(reg, del)
  }

  function Apply(reg: Registry, ops: seq<Subscription>): Registry
    decreases |ops|
  {
    if |ops| == 0 then reg
    else Apply(Step(reg, ops[0]), ops[1..])
  }

  /** The code an operation adds to the registry, if it can add one. */
  function CodeOf(op: Subscription): set<uint32>
  {
    if op.Subscribe? then {op.del.argsType.nativeEvent} else {}
  }

  function SubscribedCodes(ops: seq<Subscription>): set<uint32>
  {
    set i | 0 <= i < |ops| && ops[i].Subscribe? :: ops[i].del.argsType.nativeEvent
  }

  lemma SubscribedCodesCons(ops: seq<Subscription>)
    requires |ops| > 0
    ensures SubscribedCodes(ops) == CodeOf(ops[0]) + SubscribedCodes(ops[1..])
  {
    var tail := ops[1..];
    forall c | c in SubscribedCodes(ops) ensures c in CodeOf(ops[0]) + SubscribedCodes(tail) {
      var i :| 0 <= i < |ops| && ops[i].Subscribe? && ops[i].del.argsType.nativeEvent == c;
      if i > 0 { assert tail[i - 1] == ops[i]; }
    }
    forall c | c in SubscribedCodes(tail) ensures c in SubscribedCodes(ops) {
      var i :| 0 <= i < |tail| && tail[i].Subscribe? && tail[i].del.argsType.nativeEvent == c;
      assert ops[i + 1] == tail[i];
    }
  }

  lemma StepKeepsEntries(reg: Registry, op: Subscription)
    ensures Step(reg, op).Keys == reg.Keys + CodeOf(op)
    ensures WellTyped(reg) ==> WellTyped(Step(reg, op))
  {
  }

  /** Entries are never removed: after any sequence of subscriptions and
      unsubscriptions the registry holds exactly the old codes plus the ones
      subscribed to, and it stays well typed. */
  lemma {:induction false} ApplyKeepsEntries(reg: Registry, ops: seq<Subscription>)
    ensures Apply(reg, ops).Keys == reg.Keys + SubscribedCodes(ops)
    ensures WellTyped(reg) ==> WellTyped(Apply(reg, ops))
    decreases |ops|
  {
    if |ops| > 0 {
      StepKeepsEntries(reg, ops[0]);
      ApplyKeepsEntries(Step(reg, ops[0]), ops[1..]);
      SubscribedCodesCons(ops);
    } else {
      assert SubscribedCodes(ops) == {};
    }
  }

  /** Subscribing several delegates of one argument type to a code nobody
      subscribed to yet leaves exactly those delegates, in that order. */
  lemma {:induction false} SubscribeAllInOrder(reg: Registry, t: ArgsType, ls: seq<Listener>)
    requires t.nativeEvent !in reg
    requires forall i :: 0 <= i < |ls| ==> ls[i].argsType == t
    ensures |ls| > 0 ==> t.nativeEvent in Apply(reg, SubscribeAll(ls)) && Apply(reg, SubscribeAll(ls))[t.nativeEvent] == Entry(t, ls)
    decreases |ls|
  {
    if |ls| > 0 {
      SubscribeAllCons(reg, ls);
      assert AddDelegate(reg, ls[0]) == reg[t.nativeEvent := Entry(t, [ls[0]])];
      SubscribeAllAppend(AddDelegate(reg, ls[0]), t, [ls[0]], ls[1..]);
      assert [ls[0]] + ls[1..] == ls;
    }
  }

  lemma {:induction false} SubscribeAllAppend(reg: Registry, t: ArgsType, prefix: seq<Listener>, ls: seq<Listener>)
    requires t.nativeEvent in reg && reg[t.nativeEvent] == Entry(t, prefix)
    requires forall i :: 0 <= i < |ls| ==> ls[i].argsType == t
    ensures t.nativeEvent in Apply(reg, SubscribeAll(ls)) && Apply(reg, SubscribeAll(ls))[t.nativeEvent] == Entry(t, prefix + ls)
    decreases |ls|
  {
    if |ls| == 0 {
      assert prefix + ls == prefix;
    } else {
      SubscribeAllCons(reg, ls);
      SubscribeOne(reg, t, prefix, ls[0]);
      SubscribeAllAppend(AddDelegate(reg, ls[0]), t, prefix + [ls[0]], ls[1..]);
      SeqCons(prefix, ls);
    }
  }

  /** Moving the head of `ls` onto the end of `prefix` keeps the concatenation. */
  lemma SeqCons(prefix: seq<Listener>, ls: seq<Listener>)
    requires |ls| > 0
    ensures prefix + [ls[0]] + ls[1..] == prefix + ls
  {
    assert ls == [ls[0]] + ls[1..];
  }

  /** One more delegate of the entry's type goes to the back of its list. */
  lemma SubscribeOne(reg: Registry, t: ArgsType, prefix: seq<Listener>, x: Listener)
    requires t.nativeEvent in reg && reg[t.nativeEvent] == Entry(t, prefix)
    requires x.argsType == t
    ensures t.nativeEvent in AddDelegate(reg, x) && AddDelegate(reg, x)[t.nativeEvent] == Entry(t, prefix + [x])
  {
  }

  /** Subscribing a list is subscribing its head, then its tail. */
  lemma SubscribeAllCons(reg: Registry, ls: seq<Listener>)
    requires |ls| > 0
    ensures Apply(reg, SubscribeAll(ls)) == Apply(AddDelegate(reg, ls[0]), SubscribeAll(ls[1..]))
  {
    assert SubscribeAll(ls)[1..] == SubscribeAll(ls[1..]);
  }

  /** One `Subscribe` call per delegate, in the given order. */
  function SubscribeAll(ls: seq<Listener>): (ops: seq<Subscription>)
    ensures |ops| == |ls|
    ensures forall i :: 0 <= i < |ls| ==> ops[i] == Subscribe(ls[i])
  {
    seq(|ls|, i requires 0 <= i < |ls| => Subscribe(ls[i]))
  }
}

=== FILE: large_integer.dfy ===
/** The two `Convert` overloads of Util.cpp: an `__int64` written into, and read
    back out of, the `QuadPart` of a Win32 `LARGE_INTEGER` union. */
module LargeInteger {
  import opened NativeTypes

  /** The union as its two 32-bit halves: `LowPart` is unsigned, `HighPart`
      signed, and `QuadPart` overlays both (little-endian). */
  datatype LargeInteger = LargeInteger(lowPart: uint32, highPart: int32)

  /** Reading `QuadPart`: the 64-bit two's-complement value the halves spell. */
  function QuadPart(li: LargeInteger): (q: int64)
    ensures q % TwoTo32 == li.lowPart
  {
    li.highPart * TwoTo32 + li.lowPart
  }

  /** `Convert(__int64)`: store the value in `QuadPart`. */
  function ConvertToLargeInteger(value: int64): (li: LargeInteger)
    ensures QuadPart(li) == value
    ensures li.highPart < 0 <==> value < 0
  {
    LargeInteger(value % TwoTo32, value / TwoTo32)
  }

  /** `Convert(LARGE_INTEGER)`: read `QuadPart` back. */
  function ConvertToInt64(li: LargeInteger): (value: int64)
    ensures ConvertToLargeInteger(value) == li
  {
    QuadPart(li)
  }
}

=== FILE: marshaling.dfy ===
/** `MarshalingContext` of Util.cpp: a scoped arena for native strings. A
    process-wide TLS index holds, per thread, the current context; each
    context remembers the one it replaced, owns a private heap, and frees every
    string it handed out when it is destroyed. */
module Marshaling {
  import opened NativeTypes

  type ThreadId = nat

  /** Native addresses and handles: context objects, heaps and the strings
      `StringToHGlobalUni` returns, all drawn from one supply of fresh values. */
  type Handle = nat

  /** `TLS_OUT_OF_INDEXES`, which is also `~0`, the initial value of `_tlsEntry`. */
  const TlsOutOfIndexes: uint32 := 0xFFFF_FFFF

  /** One context: `_previous`, `_hHeap` and `_allocatedStrings`. */
  datatype Context = Context(previous: Option<Handle>, heap: Handle, strings: seq<Handle>)

  /** Everything the contexts touch: the static `_tlsEntry`, the value each
      thread stored in that TLS index, the contexts alive, the next fresh
      handle, and the logs of `FreeHGlobal` and `HeapDestroy` calls. */
  datatype Marshal = Marshal(
    tlsEntry: uint32,
    slot: map<ThreadId, Handle>,
    live: map<Handle, Context>,
    next: Handle,
    freed: seq<Handle>,
    destroyedHeaps: seq<Handle>)

  /** The state before any context was ever built. */
  const Initial: Marshal := Marshal(TlsOutOfIndexes, map[], map[], 0, [], [])

  predicate SlotAllocated(s: Marshal)
  {
    s.tlsEntry != TlsOutOfIndexes
  }

  /** `TlsGetValue(_tlsEntry)` on thread `t`: null when the index was never
      allocated or the thread never stored a value. */
  function TlsGetValue(s: Marshal, t: ThreadId): Option<Handle>
  {
    if SlotAllocated(s) && t in s.slot then Some(s.slot[t]) else None
  }

  /** `TlsSetValue(_tlsEntry, v)` on thread `t`: fails, changing nothing, when
      the index was never allocated. */
  function TlsSetValue(s: Marshal, t: ThreadId, v: Option<Handle>): Marshal
  {
    if !SlotAllocated(s) then s
    else match v
      case None => s.(slot := s.slot - {t})
      case Some(h) => s.(slot := s.slot[t := h])
  }

  // ----- bookkeeping invariant -----

  predicate Below(xs: seq<Handle>, n: Handle)
  {
    forall i :: 0 <= i < |xs| ==> xs[i] < n
  }

  predicate NoDup(xs: seq<Handle>)
  {
    forall i, j :: 0 <= i < j < |xs| ==> xs[i] != xs[j]
  }

  predicate Disjoint(a: seq<Handle>, b: seq<Handle>)
  {
    forall i, j :: 0 <= i < |a| && 0 <= j < |b| ==> a[i] != b[j]
  }

  /** Every handle is older than `next`; no string is tracked twice, tracked by
      two contexts, or tracked after being freed; no heap is owned by two
      contexts or owned after being destroyed; and nothing was freed or
      destroyed twice. */
  ghost predicate Valid(s: Marshal)
  {
    && (forall id :: id in s.live ==>
          && id < s.next
          && s.live[id].heap < s.next
          && Below(s.live[id].strings, s.next)
          && NoDup(s.live[id].strings)
          && Disjoint(s.live[id].strings, s.freed)
          && NotIn(s.live[id].heap, s.destroyedHeaps))
    && (forall id1, id2 :: id1 in s.live && id2 in s.live && id1 != id2 ==>
          && Disjoint(s.live[id1].strings, s.live[id2].strings)
          && s.live[id1].heap != s.live[id2].heap)
    && Below(s.freed, s.next)
    && NoDup(s.freed)
    && Below(s.destroyedHeaps, s.next)
    && NoDup(s.destroyedHeaps)
  }

  lemma InitialValid()
    ensures Valid(Initial)
  {
  }

  // ----- the class -----

  /** `MarshalingContext::Current`: the context current on thread `t`; `None`
      is the case the debug assertion rejects (no context active). */
  function Current(s: Marshal, t: ThreadId): (r: Option<Handle>)
    ensures !SlotAllocated(s) ==> r.None?
    ensures SlotAllocated(s) ==> (r.Some? <==> t in s.slot) && (r.Some? ==> r.value == s.slot[t])
  {
    TlsGetValue(s, t)
  }

  /** The constructor, on thread `t`. The TLS index is allocated only while
      `_tlsEntry` still holds `~0` (`tlsAlloc` is what `TlsAlloc` returns);
      the context records the current one as its previous and becomes current. */
  function Construct(s: Marshal, t: ThreadId, tlsAlloc: uint32): (r: (Marshal, Handle))
    ensures SlotAllocated(s) ==> r.0.tlsEntry == s.tlsEntry
    ensures !SlotAllocated(s) ==> r.0.tlsEntry == tlsAlloc
    ensures r.1 == s.next && r.0.next > s.next
    ensures r.1 in r.0.live && r.0.live == s.live[r.1 := Context(Current(s, t), r.0.live[r.1].heap, [])]
    ensures s.next <= r.0.live[r.1].heap < r.0.next && r.0.live[r.1].heap != r.1
    ensures SlotAllocated(r.0) ==> Current(r.0, t) == Some(r.1)
    ensures forall u :: u != t ==> Current(r.0, u) == Current(s, u)
    ensures r.0.freed == s.freed && r.0.destroyedHeaps == s.destroyedHeaps
  {
    var s1 := if SlotAllocated(s) then s else s.(tlsEntry := tlsAlloc, slot := map[]);
    var id := s.next;
    var ctx := Context(TlsGetValue(s1, t), s.next + 1, []);
    var s2 := TlsSetValue(s1, t, Some(id));
    (s2.(live := s2.live[id := ctx], next := s.next + 2), id)
  }

  /** After a construction the new context is current on its thread, unless
      the TLS index was still unallocated and `TlsAlloc` failed too: then
      nothing is current and every later `Current` on that thread is null. */
  lemma CurrentAfterConstruct(s: Marshal, t: ThreadId, tlsAlloc: uint32)
    ensures Current(Construct(s, t, tlsAlloc).0, t) ==
              if SlotAllocated(s) || tlsAlloc != TlsOutOfIndexes then Some(Construct(s, t, tlsAlloc).1) else None
    ensures !SlotAllocated(s) && tlsAlloc == TlsOutOfIndexes ==> Managed2NativeString(Construct(s, t, tlsAlloc).0, t).None?
  {
  }

  /** The destructor, on thread `t`: the TLS value goes back to the recorded
      previous context, the heap is destroyed, and every tracked string is
      freed once, in the order it was handed out. */
  function Destroy(s: Marshal, t: ThreadId, id: Handle): (r: Marshal)
    requires id in s.live
    ensures r.tlsEntry == s.tlsEntry && r.next == s.next
    ensures r.live == s.live - {id}
    ensures SlotAllocated(s) ==> Current(r, t) == s.live[id].previous
    ensures forall u :: u != t ==> Current(r, u) == Current(s, u)
    ensures r.freed == s.freed + s.live[id].strings
    ensures r.destroyedHeaps == s.destroyedHeaps + [s.live[id].heap]
  {
    var ctx := s.live[id];
    var s1 := TlsSetValue(s, t, ctx.previous);
    s1.(live := s1.live - {id}, freed := s.freed + ctx.strings, destroyedHeaps := s.destroyedHeaps + [ctx.heap])
  }

  /** `ConvertString` on context `id`: a fresh native string, appended to that
      context's tracked list and to no other. */
  function ConvertString(s: Marshal, id: Handle): (r: (Marshal, Handle))
    requires id in s.live
    ensures r.1 == s.next && r.0.next == s.next + 1
    ensures r.0.live == s.live[id := s.live[id].(strings := s.live[id].strings + [r.1])]
    ensures r.0.tlsEntry == s.tlsEntry && r.0.slot == s.slot
    ensures r.0.freed == s.freed && r.0.destroyedHeaps == s.destroyedHeaps
  {
    var h := s.next;
    var ctx := s.live[id];
    (s.(live := s.live[id := ctx.(strings := ctx.strings + [h])], next := s.next + 1), h)
  }

  /** A new context is fresh: its handle and heap are unused and it tracks
      nothing yet. */
  lemma ConstructKeepsValid(s: Marshal, t: ThreadId, tlsAlloc: uint32)
    requires Valid(s)
    ensures Valid(Construct(s, t, tlsAlloc).0)
    ensures Construct(s, t, tlsAlloc).1 !in s.live
    ensures forall x :: x in s.live ==> s.live[x].heap != Construct(s, t, tlsAlloc).0.live[Construct(s, t, tlsAlloc).1].heap
    ensures NotIn(Construct(s, t, tlsAlloc).0.live[Construct(s, t, tlsAlloc).1].heap, s.destroyedHeaps)
  {
    var (r, id) := Construct(s, t, tlsAlloc);
    forall x | x in r.live
      ensures x < r.next && r.live[x].heap < r.next && Below(r.live[x].strings, r.next)
    {
    }
  }

  /** Freeing a context's strings frees each of them once: none was freed
      before and no other context tracks it; likewise its heap is destroyed
      once and no other context owns it. */
  lemma DestroyKeepsValid(s: Marshal, t: ThreadId, id: Handle)
    requires Valid(s) && id in s.live
    ensures Valid(Destroy(s, t, id))
    ensures NoDup(Destroy(s, t, id).freed)
    ensures NoDup(Destroy(s, t, id).destroyedHeaps)
  {
    var r := Destroy(s, t, id);
    var strs := s.live[id].strings;
    forall i, j | 0 <= i < j < |r.freed|
      ensures r.freed[i] != r.freed[j]
    {
      if j >= |s.freed| {
        if i >= |s.freed| {
          assert r.freed[i] == strs[i - |s.freed|] && r.freed[j] == strs[j - |s.freed|];
        } else {
          assert r.freed[j] == strs[j - |s.freed|];
        }
      }
    }
    forall x | x in r.live
      ensures Disjoint(r.live[x].strings, r.freed)
    {
      assert x != id;
      forall i, j | 0 <= i < |r.live[x].strings| && 0 <= j < |r.freed|
        ensures r.live[x].strings[i] != r.freed[j]
      {
        if j >= |s.freed| {
          assert r.freed[j] == strs[j - |s.freed|];
        }
      }
    }
  }

  /** A converted string is a handle no one has seen: not tracked and never
      freed. */
  lemma ConvertKeepsValid(s: Marshal, id: Handle)
    requires Valid(s) && id in s.live
    ensures Valid(ConvertString(s, id).0)
    ensures ConvertString(s, id).1 !in s.freed
  {
    var (r, h) := ConvertString(s, id);
    var tracked := s.live[id].strings;
    assert NotIn(h, s.freed);
    AppendFresh(tracked, s.freed, h);
    forall x | x in r.live && x != id
      ensures Disjoint(r.live[x].strings, tracked + [h]) && Disjoint(tracked + [h], r.live[x].strings)
    {
      AppendFresh(tracked, r.live[x].strings, h);
    }
  }

  /** Appending a handle newer than every handle of `xs` and `ys` keeps `xs`
      duplicate-free and disjoint from `ys`. */
  lemma AppendFresh(xs: seq<Handle>, ys: seq<Handle>, h: Handle)
    requires NoDup(xs) && Below(xs, h) && Below(ys, h) && Disjoint(xs, ys)
    ensures NoDup(xs + [h]) && Below(xs + [h], h + 1)
    ensures Disjoint(xs + [h], ys) && Disjoint(ys, xs + [h])
  {
  }

  /** `h` occurs nowhere in `xs`: what freshness gives for a handle. */
  predicate NotIn(h: Handle, xs: seq<Handle>)
  {
    forall i :: 0 <= i < |xs| ==> xs[i] != h
  }

  /** `Managed2NativeString` on thread `t`: `ConvertString` on the current
      context. With no current context (or one already destroyed) the call
      uses a missing or dead context; that is `None`. */
  function Managed2NativeString(s: Marshal, t: ThreadId): (r: Option<(Marshal, Handle)>)
    ensures r.Some? <==> Current(s, t).Some? && Current(s, t).value in s.live
    ensures r.Some? ==> r.value == ConvertString(s, Current(s, t).value)
    ensures r.Some? ==> forall id :: id in s.live && id != Current(s, t).value ==> r.value.0.live[id] == s.live[id]
  {
    match Current(s, t)
    case None => None
    case Some(id) => if id in s.live then Some(ConvertString(s, id)) else None
  }

  // ----- properly nested scopes -----

  /** A block of code on one thread, as a list of steps: convert a string
      through `Managed2NativeString`, or open a nested `MarshalingContext`
      scope around an inner block; then carry on with the rest. */
  datatype Block = Done | Convert(rest: Block) | Nested(inner: Block, rest: Block)

  /** Every thread sees the same current context in both states. */
  ghost predicate SameCurrent(s: Marshal, s': Marshal)
  {
    forall u :: Current(s', u) == Current(s, u)
  }

  /** A scope: construct a context, run the block, destroy the context. `None`
      when a conversion in it found no current context. */
  function RunScope(s: Marshal, t: ThreadId, tlsAlloc: uint32, body: Block): (r: Option<Marshal>)
    requires Valid(s)
    ensures r.Some? ==> Valid(r.value) && r.value.live.Keys == s.live.Keys
    decreases body, 1
  {
    var (s1, id) := Construct(s, t, tlsAlloc);
    ConstructKeepsValid(s, t, tlsAlloc);
    match RunBlock(s1, t, tlsAlloc, body)
    case None => None
    case Some(s2) =>
      DestroyKeepsValid(s2, t, id);
      Some(Destroy(s2, t, id))
  }

  /** The steps of a block, in order, inside whatever context is current. */
  function RunBlock(s: Marshal, t: ThreadId, tlsAlloc: uint32, b: Block): (r: Option<Marshal>)
    requires Valid(s)
    ensures r.Some? ==> Valid(r.value) && r.value.live.Keys == s.live.Keys
    decreases b, 0
  {
    match b
    case Done => Some(s)
    case Convert(rest) =>
      (match Managed2NativeString(s, t)
       case None => None
       case Some(p) =>
         ConvertKeepsValid(s, Current(s, t).value);
         RunBlock(p.0, t, tlsAlloc, rest))
    case Nested(inner, rest) =>
      (match RunScope(s, t, tlsAlloc, inner)
       case None => None
       case Some(s1) => RunBlock(s1, t, tlsAlloc, rest))
  }

  /** What a block may change: only the string list of the context current on
      `t`; the TLS index only by its first allocation; handles only grow. */
  ghost predicate Frame(s: Marshal, s': Marshal, t: ThreadId, tlsAlloc: uint32)
  {
    && s'.live.Keys == s.live.Keys
    && (forall id :: id in s.live ==> s'.live[id].previous == s.live[id].previous && s'.live[id].heap == s.live[id].heap)
    && (forall id :: id in s.live && Some(id) != Current(s, t) ==> s'.live[id] == s.live[id])
    && SameCurrent(s, s')
    && (s'.tlsEntry == s.tlsEntry || (!SlotAllocated(s) && s'.tlsEntry == tlsAlloc))
    && s.next <= s'.next
  }

  lemma FrameTransitive(s1: Marshal, s2: Marshal, s3: Marshal, t: ThreadId, tlsAlloc: uint32)
    requires Frame(s1, s2, t, tlsAlloc) && Frame(s2, s3, t, tlsAlloc)
    ensures Frame(s1, s3, t, tlsAlloc)
  {
    assert Current(s2, t) == Current(s1, t);
  }

  lemma ConvertFrame(s: Marshal, t: ThreadId, tlsAlloc: uint32)
    requires Managed2NativeString(s, t).Some?
    ensures Frame(s, Managed2NativeString(s, t).value.0, t, tlsAlloc)
  {
    var s' := Managed2NativeString(s, t).value.0;
    assert SameCurrent(s, s') by {
      assert s'.slot == s.slot && s'.tlsEntry == s.tlsEntry;
    }
  }

  lemma RestoredFrame(s: Marshal, s': Marshal, t: ThreadId, tlsAlloc: uint32)
    requires s'.live == s.live && SameCurrent(s, s') && s.next <= s'.next
    requires s'.tlsEntry == if SlotAllocated(s) then s.tlsEntry else tlsAlloc
    ensures Frame(s, s', t, tlsAlloc)
  {
  }

  /** A properly nested scope restores what it found: the same contexts alive
      with the same contents, the same current context on every thread, and a
      TLS index allocated at most once. */
  lemma {:induction false} ScopeRestores(s: Marshal, t: ThreadId, tlsAlloc: uint32, body: Block)
    requires Valid(s)
    requires RunScope(s, t, tlsAlloc, body).Some?
    ensures RunScope(s, t, tlsAlloc, body).value.live == s.live
    ensures SameCurrent(s, RunScope(s, t, tlsAlloc, body).value)
    ensures RunScope(s, t, tlsAlloc, body).value.tlsEntry == if SlotAllocated(s) then s.tlsEntry else tlsAlloc
    ensures s.next <= RunScope(s, t, tlsAlloc, body).value.next
    decreases body, 1
  {
    var (s1, id) := Construct(s, t, tlsAlloc);
    ConstructKeepsValid(s, t, tlsAlloc);
    var s2 := RunBlock(s1, t, tlsAlloc, body).value;
    BlockFrame(s1, t, tlsAlloc, body);
    assert RunScope(s, t, tlsAlloc, body) == Some(Destroy(s2, t, id));
    assert s.next !in s.live;
    CloseRestoresLive(s, t, tlsAlloc, s2);
    CloseRestoresCurrent(s, t, tlsAlloc, s2);
  }

  /** Destroying a freshly constructed context whose block kept the frame
      leaves exactly the contexts that were alive before it. */
  lemma CloseRestoresLive(s: Marshal, t: ThreadId, tlsAlloc: uint32, s2: Marshal)
    requires s.next !in s.live
    requires Frame(Construct(s, t, tlsAlloc).0, s2, t, tlsAlloc)
    ensures Destroy(s2, t, Construct(s, t, tlsAlloc).1).live == s.live
  {
    var (s1, id) := Construct(s, t, tlsAlloc);
    var s3 := Destroy(s2, t, id);
    assert Current(s1, t) == Some(id) || Current(s1, t) == None;
    forall x | x in s.live
      ensures s3.live[x] == s.live[x]
    {
      assert x != id && s2.live[x] == s1.live[x];
    }
  }

  /** ... and every thread's current context is the one it had before. */
  lemma CloseRestoresCurrent(s: Marshal, t: ThreadId, tlsAlloc: uint32, s2: Marshal)
    requires Frame(Construct(s, t, tlsAlloc).0, s2, t, tlsAlloc)
    ensures SameCurrent(s, Destroy(s2, t, Construct(s, t, tlsAlloc).1))
    ensures Destroy(s2, t, Construct(s, t, tlsAlloc).1).tlsEntry == if SlotAllocated(s) then s.tlsEntry else tlsAlloc
  {
    var (s1, id) := Construct(s, t, tlsAlloc);
    var s3 := Destroy(s2, t, id);
    assert s2.tlsEntry == s1.tlsEntry;
    forall u
      ensures Current(s3, u) == Current(s, u)
    {
      if u != t {
        assert Current(s3, u) == Current(s2, u) == Current(s1, u);
      }
    }
  }

  /** A block changes only the current context's string list; everything else
      it opens, it closes again. */
  lemma {:induction false} BlockFrame(s: Marshal, t: ThreadId, tlsAlloc: uint32, b: Block)
    requires Valid(s)
    requires RunBlock(s, t, tlsAlloc, b).Some?
    ensures Frame(s, RunBlock(s, t, tlsAlloc, b).value, t, tlsAlloc)
    decreases b, 0
  {
    match b
    case Done =>
    case Convert(rest) =>
      var p := Managed2NativeString(s, t).value;
      ConvertKeepsValid(s, Current(s, t).value);
      ConvertFrame(s, t, tlsAlloc);
      BlockFrame(p.0, t, tlsAlloc, rest);
      FrameTransitive(s, p.0, RunBlock(s, t, tlsAlloc, b).value, t, tlsAlloc);
    case Nested(inner, rest) =>
      var s1 := RunScope(s, t, tlsAlloc, inner).value;
      ScopeRestores(s, t, tlsAlloc, inner);
      RestoredFrame(s, s1, t, tlsAlloc);
      BlockFrame(s1, t, tlsAlloc, rest);
      FrameTransitive(s, s1, RunBlock(s, t, tlsAlloc, b).value, t, tlsAlloc);
  }
}

=== FILE: native_types.dfy ===
/** Fixed-width integer ranges of the Win32 types the job library uses, and the
    `Option` and `Result` types shared by every other module. */
module NativeTypes {

  const TwoTo32: int := 0x1_0000_0000

  /** DWORD / unsigned int. */
  type uint32 = x: int | 0 <= x < 0x1_0000_0000

  /** LONG. */
  type int32 = x: int | -0x8000_0000 <= x < 0x8000_0000

  /** __int64 / LONGLONG. */
  type int64 = x: int | -0x8000_0000_0000_0000 <= x < 0x8000_0000_0000_0000

  /** A reference that may be null. */
  datatype Option<+T> = None | Some(value: T)

  /** An operation that either returns a value or raises an exception. */
  datatype Result<+T, +E> = Ok(value: T) | Err(error: E)
}
